=== FILE: README.md ===
# Dwolla REST client bookkeeping, in Dafny

A model of the client-side logic of `DwollaRestClient`, the PHP client for
the Dwolla payments REST API. The HTTP transport is abstracted away, and
everything that remains is deterministic:

- **Client state** (`Rest.Client`). It holds the configured credentials and
  scopes, a token slot (NULL until `setToken` succeeds) and a single error
  slot (falsy when nothing is pending: FALSE initially, NULL or "" after some failed replies). The error slot is read-once:
  `getError` hands out a pending message and clears the slot.
- **Argument checks** (`Endpoints`). Each endpoint tests its required
  arguments with PHP truthiness, in a fixed order. The first falsy one
  stores a specific message, and the call returns FALSE without sending
  anything.
- **Request building.** Each endpoint builds an ordered PHP array with fixed
  keys and defaults, joining lists with `,` or `|`. `_get` and `_post`
  then set `oauth_token` in that array to the current token (`Rest.Transmit`).
- **Envelope parsing** (`Rest.Parse`). `_parse` takes the decoded
  `{Success, Message, Response}` array. It returns `Response` when
  `Success` is truthy. Otherwise it stores `Message` and returns FALSE.
- **OAuth helpers** (`Auth`). `getAuthUrl` builds the authorize URL's query
  pairs. `requestToken` interprets the token endpoint's decoded reply.

PHP values are the datatype `Php.Value` (NULL, booleans, integers, strings
and ordered arrays). `Php.Truthy` is PHP's `if (!$x)` test. A client method
becomes a pure function from the client (and, where the method talks to the
server, the decoded server reply) to its return value and the client
afterwards. An endpoint is split in two parts. Its `Plan` is the check or
the request it decides on before any I/O. `Rest.Exec` carries the plan out
and reports the request put on the wire, so a refused call is one with
`sent == None`.

Three facts about the code shape the model:

- `getAuthUrl` (dwolla.php:42-53) sends `client_id`, `client_secret`,
  `redirect_uri` and `scope`, and no `response_type` pair, although
  tests/lib/DwollaRestClientTest.php:44 expects `response_type=code`;
- `register` (dwolla.php:120-133) goes through `_post`, which attaches the
  token to every call it makes;
- `_parse` (dwolla.php:319-328) stores only `Message` as the pending error.

The code's own slips are kept as written. `request` sends `sourceId` and
`sourceType` from undefined variables, so both are NULL. `listings` and
`stats` read misspelt or absent variables: `listings` for `sinceDate` and
`skip`, `stats` for `sinceDate`, `limit` and `skip`. `nearbyContacts` issues the same request as `contacts`.

## Model

| member | source | states |
|---|---|---|
| Php.Lookup | dwolla.php:69-75 | reading a key of a PHP array gives the value stored under it, and NULL when the key is absent |
| Php.Index | dwolla.php:321-327 | reading an offset of anything but an array (NULL from a reply that did not decode, a boolean, an integer) gives NULL; on an array it is the key lookup |
| Php.Assign | dwolla.php:332 | `$a[$k] = $v` makes `$k` read back `$v`, and every other key reads back what it held before |
| Php.AssignShape | dwolla.php:342 | assigning an existing key keeps the key order; assigning a new key appends it after all others |
| Php.AssignDistinct | dwolla.php:340-343 | assigning a key never creates a duplicate key |
| Php.Implode | dwolla.php:48 | `implode` of the empty list is ""; for a non-empty list whose elements avoid the separator, cutting the result at the separator gives the list back in order; for any non-empty list it cuts into the pieces of its elements in order, which fixes the string (see `Php.SplitInjective`) |
| Php.SplitJoin | dwolla.php:142 | cutting an imploded non-empty list at its separator recovers the list, when no element contains the separator |
| Php.SplitAtAnySeparator | dwolla.php:48 | cutting two strings glued by a separator gives the pieces of the first followed by the pieces of the second, whatever they contain |
| Php.SplitJoinAll | dwolla.php:48 | cutting any imploded non-empty list at its separator gives the pieces of its elements in order, even when an element contains the separator |
| Php.JoinSplit | dwolla.php:48 | imploding the pieces of any string cut at a separator gives the string back |
| Php.SplitInjective | dwolla.php:48 | two strings that cut into the same pieces are the same string, so a recovered list fixes the imploded string |
| Php.NatText | dwolla.php:110 | a natural number is written as decimal digits without a leading zero, and those digits, read back most significant first, denote the number |
| Php.ToText | dwolla.php:110 | "{$id}" interpolation keeps a string as it is, gives "" for NULL and FALSE, "1" for TRUE and "Array" for an array, writes an integer as its decimal digits (after a minus sign when negative) denoting its value, and a truthy non-array id never becomes "" or "0", so the path segment after `users/` or `transactions/` is never empty |
| Rest.New | dwolla.php:25-37 | a new client stores the given credentials and permissions, holds no token (NULL) and no pending error |
| Rest.SetError | dwolla.php:313-317 | `_setError` returns FALSE and stores exactly the given message; every other field, the token included, is unchanged |
| Rest.GetError | dwolla.php:300-308 | a truthy pending message is returned and the slot reset to FALSE; a falsy slot gives FALSE and leaves the client unchanged; afterwards nothing is pending |
| Rest.GetErrorReadOnce | dwolla.php:300-308 | a second `getError` straight after the first returns FALSE and changes nothing |
| Rest.SetErrorThenGetError | dwolla.php:313-317 | a truthy message stored by `_setError` is exactly what the next `getError` returns |
| Rest.SetToken | dwolla.php:78-84 | a falsy token returns FALSE, stores "Please pass a token string." and leaves the stored token unchanged; a truthy token is stored and TRUE returned |
| Rest.GetToken | dwolla.php:86-88 | `getToken` returns the stored token and produces no new client state |
| Rest.SetTokenThenGetToken | dwolla.php:78-88 | after a successful `setToken`, `getToken` returns that token; after a refused one it returns the old token and `getError` reports the refusal |
| Rest.Parse | dwolla.php:319-328 | a truthy `Success` returns `Response` unchanged with the client untouched; a falsy or missing `Success` returns FALSE and stores `Message`; the token never changes |
| Rest.ParseFailureSurfaces | dwolla.php:321-324 | a failed envelope with a truthy `Message` makes `getError` return that message once, then FALSE |
| Rest.ParseUndecodableIsSilent | dwolla.php:321-325 | a reply that did not decode (NULL) returns FALSE and stores NULL, wiping any earlier message, so `getError` reports nothing |
| Rest.FalsePayloadLooksLikeFailure | dwolla.php:319-328 | a successful envelope with payload FALSE returns the same value as a failure, and leaves the client unchanged |
| Rest.Transmit | dwolla.php:330-348 | the array sent holds `oauth_token` set to the current token (a caller-supplied one is overwritten), keeps every other key, value and position, goes to the API server URL, and is the POST body; a GET body is the empty array |
| Rest.TransmitDistinct | dwolla.php:340-343 | the array `_get`/`_post` send is a proper PHP array whenever the caller's was |
| Rest.Exec | dwolla.php:189-210 | a refused call sends nothing, returns FALSE and stores its message; a dispatched call sends the token-injected request and returns what `_parse` makes of the reply; only the error slot can change |
| Rest.RejectSurfaces | dwolla.php:191-193 | a refusal is what `getError` then reports, whatever the server would have said, and the token is untouched |
| Auth.AuthUrl | dwolla.php:42-53 | the authorize URL carries `client_id`, `client_secret` and `redirect_uri` from the configuration and `scope`, which is "" for no permissions and, for a non-empty list whose elements avoid the pipe character, cut at that character is the permission list in configured order; for any non-empty list it cuts into the pieces of the permissions in order; it has no `response_type` |
| Auth.ScopeUnique | dwolla.php:48 | any string that cuts at the pipe character into the configured permission list is exactly the `scope` value sent |
| Auth.DefaultScope | dwolla.php:30 | with default permissions the scope lists send, transactions, balance, request, contacts, accountinfofull, in that order |
| Auth.TestScope | tests/lib/DwollaRestClientTest.php:23-45 | the test's seven permissions, ending in funding, come out in the configured order |
| Auth.TokenUrl | dwolla.php:59-66 | the token request carries the credentials, `grant_type=authorization_code` and the code, and no `oauth_token` |
| Auth.RequestToken | dwolla.php:55-76 | a falsy code is refused with "Please pass an oauth code." before any request; a truthy `error` in the reply stores `error_description` and returns FALSE; otherwise `access_token` is returned; the stored token never changes |
| Auth.ExchangeThenSetToken | dwolla.php:69-88 | a granted token is returned but not stored; `getToken` reports it only after `setToken` |
| Auth.OAuthErrorSurfaces | dwolla.php:69-73 | for any reply with a truthy `error`, the result is FALSE, `getError` returns `error_description` once, and the stored token is unchanged |
| Endpoints.Credentials | dwolla.php:106-109 | the credential array holds `client_id` then `client_secret`, with the configured key and secret |
| Endpoints.Me | dwolla.php:93-100 | `me` is never refused and GETs `users` with no parameters of its own, so the token is the only pair `_get` adds |
| Endpoints.GetUser | dwolla.php:102-115 | refused with "Please pass a user ID." exactly when the id is falsy; otherwise GET `users/<id>`, non-empty id segment, with the credentials |
| Endpoints.Register | dwolla.php:120-133 | refused with "Please pass a user ID." exactly when the id is falsy; otherwise POST `register` with the credentials |
| Endpoints.Contacts | dwolla.php:138-150 | never refused; GET `contacts` with keys search, types, limit in that order; types are "" for an empty list and, for a non-empty list whose elements avoid ',', cut at ',' give the caller's list back; for any non-empty list they cut into the pieces of the types in order |
| Endpoints.NearbyContacts | dwolla.php:152-164 | never refused; GET `contacts` carrying the caller's search and limit |
| Endpoints.NearbyContactsIsContacts | dwolla.php:152-164 | `nearbyContacts` plans exactly the request `contacts` plans |
| Endpoints.MeSendsOnlyToken | dwolla.php:93-100 | `me` always reaches the server; the token is its only query pair; its result is what `_parse` makes of the reply |
| Endpoints.BalanceSendsOnlyToken | dwolla.php:169-176 | `balance` always reaches the server with only the token; a successful envelope's payload is returned exactly |
| Endpoints.Balance | dwolla.php:169-176 | `balance` is never refused and GETs `balance` with no parameters of its own, so the token is the only pair `_get` adds |
| Endpoints.Send | dwolla.php:181-211 | refused iff PIN, destination or amount is falsy, naming the first falsy one in that order; otherwise POST `transactions/send` with the seven fields, each holding the caller's value |
| Endpoints.SendChecksPinFirst | dwolla.php:191-193 | a falsy PIN refuses `send` whatever the other arguments and reply; nothing is sent, the token is untouched, and `getError` reports the PIN |
| Endpoints.SendDefaults | dwolla.php:181-188 | with only the required arguments, notes are "", destinationType "Dwolla", facilitatorAmount 0 and assumeCosts TRUE |
| Endpoints.RequestMoney | dwolla.php:213-240 | refused iff PIN, source or amount is falsy, naming the first falsy one; otherwise POST `transactions/request` where sourceId and sourceType are NULL |
| Endpoints.RequestMoneyLosesSource | dwolla.php:226-234 | whatever source the caller names, the wire request carries NULL sourceId and sourceType next to the token, in query and body |
| Endpoints.RequestMoneyThreeArguments | dwolla.php:213-223 | the call `request(pin, id, amount)` binds the amount to sourceType and is refused for a missing amount |
| Endpoints.Transaction | dwolla.php:242-254 | refused with "Please enter a transaction ID." exactly when the id is falsy; otherwise GET `transactions/<id>` with no parameters of its own |
| Endpoints.Listings | dwolla.php:256-275 | never refused; GET `transactions` with sinceDate and skip NULL, the caller's limit, and types that are "" for an empty list and, for a non-empty list whose elements avoid the pipe character, cut at it give the list back; for any non-empty list they cut into the pieces of the types in order |
| Endpoints.ListingsIgnoresSinceAndSkip | dwolla.php:261-266 | the sinceDate and skip arguments of `listings` do not affect the request |
| Endpoints.Stats | dwolla.php:277-295 | never refused; GET `transactions/stats` with sinceDate, limit and skip NULL and types that are "" for an empty list and, for a non-empty list whose elements avoid ',', cut at ',' give the list back; for any non-empty list they cut into the pieces of the types in order |
| Endpoints.StatsIgnoresDates | dwolla.php:277-286 | the date arguments of `stats` do not affect the request |
| Endpoints.RegisterCarriesToken | dwolla.php:128 | the registration request carries the current token and the client id |

## Left out

- `_curl` and the transport (dwolla.php:350-366): headers, the 2-second connect timeout, redirects and network errors are not modelled. The decoded reply is a parameter of `Rest.Exec` and `Auth.RequestToken`.
- `json_decode`, `json_encode` and `http_build_query` are library calls and are not modelled. A query is the ordered array handed to `http_build_query`. That function also drops NULL-valued pairs, so an unset token or `request`'s NULL `sourceId` would not appear in the encoded URL.
- The load-time checks for the curl and JSON extensions (dwolla.php:14-15) are not modelled.
- PHP floats are not part of `Php.Value`. Amounts such as 0.01 are represented by strings or integers. PHP treats the float 0.0 as falsy but the string "0.0" as truthy.
- Php.Index: reading an offset of a string reply is modelled as NULL. PHP would instead read a character of the string, with a warning.
- PHP arrays with integer keys are represented with the keys' decimal strings. The lists given to `implode` are lists of strings.
- Endpoints.NearbyContacts: its own contract states only the path, search and limit. The full statement is `Endpoints.NearbyContactsIsContacts`.
- The example script's thirteen-argument `register` call is not modelled. `register` takes only a user id.

=== FILE: auth.dfy ===
/** The OAuth half of the client: the authorize URL handed to the user's
    browser, and the code-for-token exchange. Neither goes through `_get`,
    so neither carries `oauth_token`. */
module Auth {
  import opened Php
  import opened Rest

  const AuthorizeEndpoint: string := "https://www.dwolla.com/oauth/v2/authenticate"
  const TokenEndpoint: string := "https://www.dwolla.com/oauth/v2/token"
  const CodeMissing: string := "Please pass an oauth code."

  /** A URL as its base and the query pairs given to http_build_query. */
  datatype Url = Url(base: string, query: seq<Entry>)

  /** `getAuthUrl`: the configured client id, secret and redirect URI, and
      the permissions joined with '|' in configured order, so that a server
      cutting `scope` at '|' recovers them. There is no `response_type`
      pair. */
  function AuthUrl(c: Client): (u: Url)
    ensures u.base == AuthorizeEndpoint
    ensures KeysOf(u.query) == ["client_id", "client_secret", "redirect_uri", "scope"]
    ensures Distinct(u.query)
    ensures Lookup(u.query, "client_id") == c.apiKey
    ensures Lookup(u.query, "client_secret") == c.apiSecret
    ensures Lookup(u.query, "redirect_uri") == c.redirectUri
    ensures Lookup(u.query, "scope").Str?
    ensures |c.permissions| == 0 ==> Lookup(u.query, "scope") == Str("")
    ensures |c.permissions| > 0 && Separable('|', c.permissions) ==>
              Split('|', Lookup(u.query, "scope").s) == c.permissions
    ensures |c.permissions| > 0 ==> Split('|', Lookup(u.query, "scope").s) == Pieces('|', c.permissions)
    ensures !HasKey(u.query, "response_type")
  {
    var scope := Implode('|', c.permissions);
    var q := [Entry("client_id", c.apiKey), Entry("client_secret", c.apiSecret),
              Entry("redirect_uri", c.redirectUri), Entry("scope", scope)];
    assert q[0].key == "client_id" && q[1].key == "client_secret";
    assert q[2].key == "redirect_uri" && q[3].key == "scope";
    assert Distinct(q);
    Url(AuthorizeEndpoint, q)
  }

  /** The scope is the only string that cuts at '|' into the permission
      list, so the list `Split` recovers pins the scope string down. */
  lemma ScopeUnique(c: Client, s: string)
    requires |c.permissions| > 0 && Separable('|', c.permissions)
    requires Split('|', s) == c.permissions
    ensures Lookup(AuthUrl(c).query, "scope") == Str(s)
  {
    SplitInjective('|', s, Lookup(AuthUrl(c).query, "scope").s);
  }

  /** With the constructor's default permissions the scope, cut at '|',
      lists the six default scopes in their configured order. */
  lemma DefaultScope(apiKey: Value, apiSecret: Value, redirectUri: Value)
    ensures var scope := Lookup(AuthUrl(New(apiKey, apiSecret, redirectUri)).query, "scope");
            scope.Str?
            && Split('|', scope.s) == ["send", "transactions", "balance", "request", "contacts", "accountinfofull"]
  {
    assert Separable('|', DefaultPermissions);
  }

  /** The permission list the client's unit test configures, with "funding"
      added last, comes out in the same order. */
  lemma TestScope(apiKey: Value, apiSecret: Value, redirectUri: Value)
    ensures var ps := ["send", "transactions", "balance", "request", "contacts", "accountinfofull", "funding"];
            var scope := Lookup(AuthUrl(New(apiKey, apiSecret, redirectUri, ps)).query, "scope");
            scope.Str? && Split('|', scope.s) == ps
  {
    var ps := ["send", "transactions", "balance", "request", "contacts", "accountinfofull", "funding"];
    assert Separable('|', ps);
  }

  /** The query pairs of the token request: the credentials, the fixed grant
      type and the code, and no `oauth_token`. */
  function TokenUrl(c: Client, code: Value): (u: Url)
    ensures u.base == TokenEndpoint
    ensures KeysOf(u.query) == ["client_id", "client_secret", "redirect_uri", "grant_type", "code"]
    ensures Distinct(u.query)
    ensures Lookup(u.query, "client_id") == c.apiKey
    ensures Lookup(u.query, "client_secret") == c.apiSecret
    ensures Lookup(u.query, "redirect_uri") == c.redirectUri
    ensures Lookup(u.query, "grant_type") == Str("authorization_code")
    ensures Lookup(u.query, "code") == code
    ensures !HasKey(u.query, "oauth_token")
  {
    var q := [Entry("client_id", c.apiKey), Entry("client_secret", c.apiSecret),
              Entry("redirect_uri", c.redirectUri), Entry("grant_type", Str("authorization_code")),
              Entry("code", code)];
    assert q[0].key == "client_id" && q[1].key == "client_secret" && q[2].key == "redirect_uri";
    assert q[3].key == "grant_type" && q[4].key == "code";
    assert Distinct(q);
    Url(TokenEndpoint, q)
  }

  /** The result of `requestToken`: its return value, the client afterwards
      and the token request sent, if any. */
  datatype Exchange = Exchange(result: Value, client: Client, sent: Option<Url>)

  /** `requestToken`: a falsy code is refused before any request. Otherwise
      `response` is the decoded token-endpoint reply: a truthy `error` makes
      `error_description` the pending error and the result FALSE; else the
      result is `access_token`. The stored token is never changed. */
  function RequestToken(c: Client, code: Value, response: Value): (e: Exchange)
    ensures !Truthy(code) ==>
              e.sent == None && e.result == False && e.client == c.(error := Str(CodeMissing))
    ensures Truthy(code) ==> e.sent == Some(TokenUrl(c, code))
    ensures Truthy(code) && Truthy(Index(response, "error")) ==>
              e.result == False && e.client == c.(error := Index(response, "error_description"))
    ensures Truthy(code) && !Truthy(Index(response, "error")) ==>
              e.result == Index(response, "access_token") && e.client == c
    ensures SameButError(c, e.client)
  {
    if !Truthy(code) then
      var r := SetError(c, Str(CodeMissing));
      Exchange(r.result, r.client, None)
    else if Truthy(Index(response, "error")) then
      Exchange(False, c.(error := Index(response, "error_description")), Some(TokenUrl(c, code)))
    else
      Exchange(Index(response, "access_token"), c, Some(TokenUrl(c, code)))
  }

  /** A granted token is returned but not stored: `getToken` still reports
      the old token until the caller passes the new one to `setToken`. */
  lemma ExchangeThenSetToken(c: Client, code: Value, token: string)
    requires Truthy(code) && token != "" && token != "0"
    ensures var e := RequestToken(c, code, Arr([Entry("access_token", Str(token))]));
            e.result == Str(token)
            && GetToken(e.client) == GetToken(c)
            && GetToken(SetToken(e.client, e.result).client) == Str(token)
  {
  }

  /** A refused grant surfaces its description through `getError`, once,
      and leaves the stored token alone. */
  lemma OAuthErrorSurfaces(c: Client, code: Value, response: Value)
    requires Truthy(code)
    requires Truthy(Index(response, "error")) && Truthy(Index(response, "error_description"))
    ensures var e := RequestToken(c, code, response);
            && e.result == False
            && GetError(e.client).result == Index(response, "error_description")
            && GetError(GetError(e.client).client).result == False
            && GetToken(e.client) == GetToken(c)
  {
  }
}

=== FILE: endpoints.dfy ===
/** The endpoint methods of `DwollaRestClient`, each as the plan it makes
    before any I/O: which argument check refuses the call and with which
    message, or which path and parameter array it hands to `_get` or `_post`.
    Running a plan (token injection, `_parse`) is `Rest.Exec`. Defaults are
    those of the PHP signatures. */
module Endpoints {
  import opened Php
  import opened Rest

  const UserIdMissing: string := "Please pass a user ID."
  const PinMissing: string := "Please enter a PIN."
  const DestinationMissing: string := "Please enter a destination ID."
  const SourceMissing: string := "Please enter a source ID."
  const AmountMissing: string := "Please enter a transaction amount."
  const TransactionIdMissing: string := "Please enter a transaction ID."

  const DefaultContactTypes: seq<string> := ["Dwolla"]
  const DefaultListingTypes: seq<string> := ["money_sent", "money_received", "deposit", "withdrawal", "fee"]
  const DefaultStatsTypes: seq<string> := ["TransactionsCount", "TransactionsTotal"]

  /** The application credentials some user calls pass along. */
  function Credentials(c: Client): (es: seq<Entry>)
    ensures KeysOf(es) == ["client_id", "client_secret"] && Distinct(es)
    ensures Lookup(es, "client_id") == c.apiKey && Lookup(es, "client_secret") == c.apiSecret
  {
    var es := [Entry("client_id", c.apiKey), Entry("client_secret", c.apiSecret)];
    assert es[0].key == "client_id" && es[1].key == "client_secret";
    es
  }

  // ---------------------------------------------------------------------------
  // Users
  // ---------------------------------------------------------------------------

  /** `me`: the profile of the token's owner. Never refused; GET `users`
      with no parameters of its own, so only the token is sent. */
  function Me(): (p: Plan)
    ensures p.Dispatch? && p.req.verb == GET && p.req.path == "users"
    ensures KeysOf(p.req.params) == [] && !HasKey(p.req.params, "oauth_token")
  {
    Dispatch(Request(GET, "users", []))
  }

  /** `getUser`: a falsy id is refused; otherwise GET `users/<id>` with the
      credentials. A truthy id always gives a non-empty path segment. */
  function GetUser(c: Client, userId: Value := False): (p: Plan)
    ensures p.Reject? <==> !Truthy(userId)
    ensures p.Reject? ==> p.message == UserIdMissing
    ensures p.Dispatch? ==>
              && p.req.verb == GET
              && p.req.path == "users/" + ToText(userId)
              && |p.req.path| > |"users/"|
              && p.req.params == Credentials(c)
  {
    if !Truthy(userId) then Reject(UserIdMissing)
    else Dispatch(Request(GET, "users/" + ToText(userId), Credentials(c)))
  }

  /** `register`: as written it takes only a user id, is refused when that
      is falsy, and otherwise POSTs the credentials to `register` (through
      `_post`, so the token is attached as well). */
  function Register(c: Client, userId: Value := False): (p: Plan)
    ensures p.Reject? <==> !Truthy(userId)
    ensures p.Reject? ==> p.message == UserIdMissing
    ensures p.Dispatch? ==>
              p.req.verb == POST && p.req.path == "register" && p.req.params == Credentials(c)
  {
    if !Truthy(userId) then Reject(UserIdMissing)
    else Dispatch(Request(POST, "register", Credentials(c)))
  }

  // ---------------------------------------------------------------------------
  // Contacts and balance
  // ---------------------------------------------------------------------------

  /** `contacts`: never refused; GET `contacts` with `search`, the types
      joined with ',' and `limit`. */
  function Contacts(search: Value := False, types: seq<string> := DefaultContactTypes,
                    limit: Value := Int(10)): (p: Plan)
    ensures p.Dispatch? && p.req.verb == GET && p.req.path == "contacts"
    ensures KeysOf(p.req.params) == ["search", "types", "limit"] && Distinct(p.req.params)
    ensures Lookup(p.req.params, "search") == search
    ensures Lookup(p.req.params, "limit") == limit
    ensures Lookup(p.req.params, "types").Str?
    ensures |types| == 0 ==> Lookup(p.req.params, "types") == Str("")
    ensures |types| > 0 && Separable(',', types) ==> Split(',', Lookup(p.req.params, "types").s) == types
    ensures |types| > 0 ==> Split(',', Lookup(p.req.params, "types").s) == Pieces(',', types)
  {
    var es := [Entry("search", search), Entry("types", Implode(',', types)), Entry("limit", limit)];
    assert es[0].key == "search" && es[1].key == "types" && es[2].key == "limit";
    Dispatch(Request(GET, "contacts", es))
  }

  /** `nearbyContacts`: as written, the same request as `contacts`. */
  function NearbyContacts(search: Value := False, types: seq<string> := DefaultContactTypes,
                          limit: Value := Int(10)): (p: Plan)
    ensures p.Dispatch? && p.req.verb == GET && p.req.path == "contacts"
    ensures Lookup(p.req.params, "search") == search
    ensures Lookup(p.req.params, "limit") == limit
  {
    var es := [Entry("search", search), Entry("types", Implode(',', types)), Entry("limit", limit)];
    assert es[0].key == "search" && es[1].key == "types" && es[2].key == "limit";
    Dispatch(Request(GET, "contacts", es))
  }

  /** `balance`: the account balance. Never refused; GET `balance` with no
      parameters of its own, so only the token is sent. */
  function Balance(): (p: Plan)
    ensures p.Dispatch? && p.req.verb == GET && p.req.path == "balance"
    ensures KeysOf(p.req.params) == [] && !HasKey(p.req.params, "oauth_token")
  {
    Dispatch(Request(GET, "balance", []))
  }

  // ---------------------------------------------------------------------------
  // Transactions
  // ---------------------------------------------------------------------------

  /** `send`: the PIN is checked first, then the destination, then the
      amount, and the first falsy one names the refusal. Otherwise POST
      `transactions/send` with the seven fields. */
  function Send(pin: Value := False, destinationId: Value := False, amount: Value := False,
                notes: Value := Str(""), destinationType: Value := Str("Dwolla"),
                facilitatorAmount: Value := Int(0), assumeCosts: Value := True): (p: Plan)
    ensures p.Reject? <==> !(Truthy(pin) && Truthy(destinationId) && Truthy(amount))
    ensures !Truthy(pin) ==> p == Reject(PinMissing)
    ensures Truthy(pin) && !Truthy(destinationId) ==> p == Reject(DestinationMissing)
    ensures Truthy(pin) && Truthy(destinationId) && !Truthy(amount) ==> p == Reject(AmountMissing)
    ensures p.Dispatch? ==>
              && p.req.verb == POST && p.req.path == "transactions/send"
              && KeysOf(p.req.params) == ["pin", "destinationId", "destinationType", "amount",
                                          "facilitatorAmount", "assumeCosts", "notes"]
              && Distinct(p.req.params)
              && Lookup(p.req.params, "pin") == pin
              && Lookup(p.req.params, "destinationId") == destinationId
              && Lookup(p.req.params, "destinationType") == destinationType
              && Lookup(p.req.params, "amount") == amount
              && Lookup(p.req.params, "facilitatorAmount") == facilitatorAmount
              && Lookup(p.req.params, "assumeCosts") == assumeCosts
              && Lookup(p.req.params, "notes") == notes
  {
    if !Truthy(pin) then Reject(PinMissing)
    else if !Truthy(destinationId) then Reject(DestinationMissing)
    else if !Truthy(amount) then Reject(AmountMissing)
    else
      var es := [Entry("pin", pin), Entry("destinationId", destinationId),
                 Entry("destinationType", destinationType), Entry("amount", amount),
                 Entry("facilitatorAmount", facilitatorAmount), Entry("assumeCosts", assumeCosts),
                 Entry("notes", notes)];
      assert es[0].key == "pin" && es[1].key == "destinationId" && es[2].key == "destinationType";
      assert es[3].key == "amount" && es[4].key == "facilitatorAmount";
      assert es[5].key == "assumeCosts" && es[6].key == "notes";
      Dispatch(Request(POST, "transactions/send", es))
  }

  /** `request` (asking money of someone): PIN, then source, then amount are
      checked in that order. The array it builds reads the undefined
      variables `$destinationId` and `$destinationType`, so `sourceId` and
      `sourceType` are always sent as NULL, whatever the caller passed. */
  function RequestMoney(pin: Value := False, sourceId: Value := False, sourceType: Value := Str("Dwolla"),
                        amount: Value := False, facilitatorAmount: Value := Int(0),
                        notes: Value := Str("")): (p: Plan)
    ensures p.Reject? <==> !(Truthy(pin) && Truthy(sourceId) && Truthy(amount))
    ensures !Truthy(pin) ==> p == Reject(PinMissing)
    ensures Truthy(pin) && !Truthy(sourceId) ==> p == Reject(SourceMissing)
    ensures Truthy(pin) && Truthy(sourceId) && !Truthy(amount) ==> p == Reject(AmountMissing)
    ensures p.Dispatch? ==>
              && p.req.verb == POST && p.req.path == "transactions/request"
              && KeysOf(p.req.params) == ["pin", "sourceId", "sourceType", "amount",
                                          "facilitatorAmount", "notes"]
              && Distinct(p.req.params)
              && Lookup(p.req.params, "pin") == pin
              && Lookup(p.req.params, "sourceId") == Null
              && Lookup(p.req.params, "sourceType") == Null
              && Lookup(p.req.params, "amount") == amount
              && Lookup(p.req.params, "facilitatorAmount") == facilitatorAmount
              && Lookup(p.req.params, "notes") == notes
  {
    if !Truthy(pin) then Reject(PinMissing)
    else if !Truthy(sourceId) then Reject(SourceMissing)
    else if !Truthy(amount) then Reject(AmountMissing)
    else
      var es := [Entry("pin", pin), Entry("sourceId", Null), Entry("sourceType", Null),
                 Entry("amount", amount), Entry("facilitatorAmount", facilitatorAmount),
                 Entry("notes", notes)];
      assert es[0].key == "pin" && es[1].key == "sourceId" && es[2].key == "sourceType";
      assert es[3].key == "amount" && es[4].key == "facilitatorAmount" && es[5].key == "notes";
      Dispatch(Request(POST, "transactions/request", es))
  }

  /** `transaction`: a falsy id is refused; otherwise GET
      `transactions/<id>` with no parameters of its own. */
  function Transaction(transactionId: Value): (p: Plan)
    ensures p.Reject? <==> !Truthy(transactionId)
    ensures p.Reject? ==> p.message == TransactionIdMissing
    ensures p.Dispatch? ==>
              && p.req.verb == GET
              && p.req.path == "transactions/" + ToText(transactionId)
              && |p.req.path| > |"transactions/"|
              && p.req.params == []
  {
    if !Truthy(transactionId) then Reject(TransactionIdMissing)
    else Dispatch(Request(GET, "transactions/" + ToText(transactionId), []))
  }

  /** `listings`: never refused; GET `transactions`. `sinceDate` and `skip`
      are read from misspelt, undefined variables and so are NULL; the types
      are joined with '|'. */
  function Listings(sinceDate: Value := False, types: seq<string> := DefaultListingTypes,
                    limit: Value := Int(10), skip: Value := False): (p: Plan)
    ensures p.Dispatch? && p.req.verb == GET && p.req.path == "transactions"
    ensures KeysOf(p.req.params) == ["sinceDate", "types", "limit", "skip"] && Distinct(p.req.params)
    ensures Lookup(p.req.params, "sinceDate") == Null
    ensures Lookup(p.req.params, "skip") == Null
    ensures Lookup(p.req.params, "limit") == limit
    ensures Lookup(p.req.params, "types").Str?
    ensures |types| == 0 ==> Lookup(p.req.params, "types") == Str("")
    ensures |types| > 0 && Separable('|', types) ==> Split('|', Lookup(p.req.params, "types").s) == types
    ensures |types| > 0 ==> Split('|', Lookup(p.req.params, "types").s) == Pieces('|', types)
  {
    var es := [Entry("sinceDate", Null), Entry("types", Implode('|', types)),
               Entry("limit", limit), Entry("skip", Null)];
    assert es[0].key == "sinceDate" && es[1].key == "types" && es[2].key == "limit" && es[3].key == "skip";
    Dispatch(Request(GET, "transactions", es))
  }

  /** `stats`: never refused; GET `transactions/stats`. Apart from the types,
      joined with ',', every field comes from an undefined variable and is
      NULL; the date arguments are never read. */
  function Stats(types: seq<string> := DefaultStatsTypes, sinceDate: Value := False,
                 endDate: Value := False): (p: Plan)
    ensures p.Dispatch? && p.req.verb == GET && p.req.path == "transactions/stats"
    ensures KeysOf(p.req.params) == ["sinceDate", "types", "limit", "skip"] && Distinct(p.req.params)
    ensures Lookup(p.req.params, "sinceDate") == Null
    ensures Lookup(p.req.params, "limit") == Null
    ensures Lookup(p.req.params, "skip") == Null
    ensures Lookup(p.req.params, "types").Str?
    ensures |types| == 0 ==> Lookup(p.req.params, "types") == Str("")
    ensures |types| > 0 && Separable(',', types) ==> Split(',', Lookup(p.req.params, "types").s) == types
    ensures |types| > 0 ==> Split(',', Lookup(p.req.params, "types").s) == Pieces(',', types)
  {
    var es := [Entry("sinceDate", Null), Entry("types", Implode(',', types)),
               Entry("limit", Null), Entry("skip", Null)];
    assert es[0].key == "sinceDate" && es[1].key == "types" && es[2].key == "limit" && es[3].key == "skip";
    Dispatch(Request(GET, "transactions/stats", es))
  }

  // ---------------------------------------------------------------------------
  // Properties of whole calls
  // ---------------------------------------------------------------------------

  /** `me` always reaches the server, the only query pair it sends is the
      token, and its result is whatever `_parse` makes of the reply. */
  lemma MeSendsOnlyToken(c: Client, response: Value)
    ensures Exec(c, Me(), response).sent
         == Some(Wire(GET, ApiServer + "users", [Entry("oauth_token", c.token)], []))
    ensures Exec(c, Me(), response).result == Parse(c, response).result
  {
  }

  /** `balance` always reaches the server and the only query pair it sends
      is the token; a successful envelope's payload comes back unchanged. */
  lemma BalanceSendsOnlyToken(c: Client, payload: Value, message: Value)
    ensures var o := Exec(c, Balance(), Envelope(True, message, payload));
            && o.sent == Some(Wire(GET, ApiServer + "balance", [Entry("oauth_token", c.token)], []))
            && o.result == payload && o.client == c
  {
  }

  /** A falsy PIN stops `send` before anything is sent, whatever the other
      arguments and whatever the server would have answered, and it is the
      PIN that `getError` then reports; the token is untouched. */
  lemma SendChecksPinFirst(c: Client, response: Value, destinationId: Value, amount: Value,
                           notes: Value, destinationType: Value, facilitatorAmount: Value,
                           assumeCosts: Value, pin: Value)
    requires !Truthy(pin)
    ensures var o := Exec(c, Send(pin, destinationId, amount, notes, destinationType,
                                  facilitatorAmount, assumeCosts), response);
            o.sent == None && o.result == False && o.client.token == c.token
            && GetError(o.client).result == Str(PinMissing)
  {
  }

  /** With only the three required arguments, `send` fills in the defaults:
      no notes, the Dwolla network, no facilitator fee, sender pays. */
  lemma SendDefaults(pin: Value, destinationId: Value, amount: Value)
    requires Truthy(pin) && Truthy(destinationId) && Truthy(amount)
    ensures var p := Send(pin, destinationId, amount);
            && Lookup(p.req.params, "notes") == Str("")
            && Lookup(p.req.params, "destinationType") == Str("Dwolla")
            && Lookup(p.req.params, "facilitatorAmount") == Int(0)
            && Lookup(p.req.params, "assumeCosts") == True
  {
  }

  /** Whatever source the caller names, the `request` that reaches the wire
      carries NULL for `sourceId` and `sourceType`, next to the token. */
  lemma RequestMoneyLosesSource(c: Client, response: Value, pin: Value, sourceId: Value,
                                sourceType: Value, amount: Value, facilitatorAmount: Value, notes: Value)
    requires Truthy(pin) && Truthy(sourceId) && Truthy(amount)
    ensures var o := Exec(c, RequestMoney(pin, sourceId, sourceType, amount, facilitatorAmount, notes), response);
            && o.sent.Some?
            && Lookup(o.sent.value.query, "sourceId") == Null
            && Lookup(o.sent.value.query, "sourceType") == Null
            && Lookup(o.sent.value.query, "oauth_token") == c.token
            && o.sent.value.body == o.sent.value.query
  {
    var p := RequestMoney(pin, sourceId, sourceType, amount, facilitatorAmount, notes);
    assert p.Dispatch?;
    var w := Transmit(c, p.req);
    assert Lookup(w.query, "sourceId") == Lookup(p.req.params, "sourceId");
    assert Lookup(w.query, "sourceType") == Lookup(p.req.params, "sourceType");
  }

  /** The third positional argument of `request` is the source type, so the
      three-argument call `request(pin, id, amount)` leaves the amount at its
      FALSE default and is refused for a missing amount. */
  lemma RequestMoneyThreeArguments(pin: Value, sourceId: Value, amount: Value)
    requires Truthy(pin) && Truthy(sourceId)
    ensures RequestMoney(pin, sourceId, amount) == Reject(AmountMissing)
  {
  }

  /** `nearbyContacts` is indistinguishable from `contacts`. */
  lemma NearbyContactsIsContacts(search: Value, types: seq<string>, limit: Value)
    ensures NearbyContacts(search, types, limit) == Contacts(search, types, limit)
  {
  }

  /** The `sinceDate` and `skip` arguments of `listings` have no effect. */
  lemma ListingsIgnoresSinceAndSkip(types: seq<string>, limit: Value,
                                    sinceDate: Value, skip: Value, sinceDate': Value, skip': Value)
    ensures Listings(sinceDate, types, limit, skip) == Listings(sinceDate', types, limit, skip')
  {
  }

  /** The date range arguments of `stats` have no effect. */
  lemma StatsIgnoresDates(types: seq<string>, sinceDate: Value, endDate: Value,
                          sinceDate': Value, endDate': Value)
    ensures Stats(types, sinceDate, endDate) == Stats(types, sinceDate', endDate')
  {
  }

  /** `register` goes through `_post`, so the current token is attached to
      the registration request like to any other. */
  lemma RegisterCarriesToken(c: Client, userId: Value, response: Value)
    requires Truthy(userId)
    ensures var o := Exec(c, Register(c, userId), response);
            o.sent.Some? && Lookup(o.sent.value.query, "oauth_token") == c.token
            && Lookup(o.sent.value.query, "client_id") == c.apiKey
  {
  }
}

=== FILE: php.dfy ===
/** The slice of PHP's value model the client depends on: the values a caller
    passes in or json_decode(..., TRUE) hands back, PHP's truthiness test,
    ordered arrays with `$a[$k]` read and write, `implode`, and the string
    conversion used by "{$id}" interpolation. */
module Php {

  /** A PHP value. Arrays are ordered key => value tables; keys are kept in
      their string form (PHP stores the key "0" and the key 0 in one slot). */
  datatype Value =
    | Null
    | Bool(b: bool)
    | Int(i: int)
    | Str(s: string)
    | Arr(entries: seq<Entry>)

  /** One slot of a PHP array. */
  datatype Entry = Entry(key: string, val: Value)

  const False: Value := Bool(false)
  const True: Value := Bool(true)

  /** PHP's conversion to boolean, as used by `if (!$x)`. */
  predicate Truthy(v: Value) {
    match v
    case Null => false
    case Bool(b) => b
    case Int(i) => i != 0
    case Str(s) => s != "" && s != "0"
    case Arr(es) => |es| > 0
  }

  // ---------------------------------------------------------------------------
  // Ordered arrays
  // ---------------------------------------------------------------------------

  /** The keys of an array, in insertion order. */
  function KeysOf(es: seq<Entry>): (ks: seq<string>)
    ensures |ks| == |es|
    ensures forall i :: 0 <= i < |es| ==> ks[i] == es[i].key
  {
    seq(|es|, i requires 0 <= i < |es| => es[i].key)
  }

  predicate HasKey(es: seq<Entry>, k: string) {
    k in KeysOf(es)
  }

  /** A PHP array never holds the same key twice. */
  predicate Distinct(es: seq<Entry>) {
    forall i, j :: 0 <= i < j < |es| ==> es[i].key != es[j].key
  }

  lemma ConsParts(es: seq<Entry>)
    requires |es| > 0
    ensures [es[0]] + es[1..] == es
  {
  }

  lemma KeysOfCons(e: Entry, es: seq<Entry>)
    ensures KeysOf([e] + es) == [e.key] + KeysOf(es)
  {
  }

  /** `$a[$k]` on an array: the value stored under `k`, or NULL (with a
      notice) when there is no such key. */
  function Lookup(es: seq<Entry>, k: string): (r: Value)
    ensures !HasKey(es, k) ==> r == Null
    ensures Distinct(es) ==> forall i :: 0 <= i < |es| && es[i].key == k ==> r == es[i].val
    decreases |es|
  {
    if |es| == 0 then Null
    else if es[0].key == k then es[0].val
    else
      var r := Lookup(es[1..], k);
      assert !HasKey(es, k) ==> r == Null by {
        ConsParts(es);
        KeysOfCons(es[0], es[1..]);
      }
      assert Distinct(es) ==> forall i :: 0 <= i < |es| && es[i].key == k ==> r == es[i].val by {
        if Distinct(es) {
          assert Distinct(es[1..]);
          forall i | 0 < i < |es| && es[i].key == k ensures r == es[i].val {
            assert es[i] == es[1..][i - 1];
          }
        }
      }
      r
  }

  lemma LookupCons(e: Entry, es: seq<Entry>)
    ensures forall k :: Lookup([e] + es, k) == if e.key == k then e.val else Lookup(es, k)
  {
    assert ([e] + es)[1..] == es;
  }

  /** `$a[$k] = $v`: afterwards `k` reads back `v` and every other key reads
      back what it read before. */
  function Assign(es: seq<Entry>, k: string, v: Value): (r: seq<Entry>)
    ensures Lookup(r, k) == v
    ensures forall k' :: k' != k ==> Lookup(r, k') == Lookup(es, k')
    decreases |es|
  {
    if |es| == 0 then [Entry(k, v)]
    else if es[0].key == k then
      ConsParts(es);
      LookupCons(es[0], es[1..]);
      LookupCons(Entry(k, v), es[1..]);
      [Entry(k, v)] + es[1..]
    else
      var tail := Assign(es[1..], k, v);
      ConsParts(es);
      LookupCons(es[0], es[1..]);
      LookupCons(es[0], tail);
      [es[0]] + tail
  }

  /** Assignment to a key already present keeps the key order. */
  lemma {:induction false} AssignKeepsKeys(es: seq<Entry>, k: string, v: Value)
    requires HasKey(es, k)
    ensures KeysOf(Assign(es, k, v)) == KeysOf(es)
    decreases |es|
  {
    ConsParts(es);
    KeysOfCons(es[0], es[1..]);
    if es[0].key == k {
      KeysOfCons(Entry(k, v), es[1..]);
    } else {
      AssignKeepsKeys(es[1..], k, v);
      KeysOfCons(es[0], Assign(es[1..], k, v));
    }
  }

  /** Assignment to a new key appends it at the end. */
  lemma {:induction false} AssignAppends(es: seq<Entry>, k: string, v: Value)
    requires !HasKey(es, k)
    ensures Assign(es, k, v) == es + [Entry(k, v)]
    decreases |es|
  {
    if |es| == 0 {
      assert [Entry(k, v)] == es + [Entry(k, v)];
    } else {
      ConsParts(es);
      KeysOfCons(es[0], es[1..]);
      AssignAppends(es[1..], k, v);
      assert [es[0]] + (es[1..] + [Entry(k, v)]) == es + [Entry(k, v)];
    }
  }

  /** Where assignment puts the key: an existing key keeps its position, so
      the key order is unchanged; a new key is appended at the end. */
  lemma AssignShape(es: seq<Entry>, k: string, v: Value)
    ensures KeysOf(Assign(es, k, v)) == if HasKey(es, k) then KeysOf(es) else KeysOf(es) + [k]
    ensures !HasKey(es, k) ==> Assign(es, k, v) == es + [Entry(k, v)]
  {
    if HasKey(es, k) {
      AssignKeepsKeys(es, k, v);
    } else {
      AssignAppends(es, k, v);
      KeysOfAppend(es, Entry(k, v));
    }
  }

  lemma KeysOfAppend(es: seq<Entry>, e: Entry)
    ensures KeysOf(es + [e]) == KeysOf(es) + [e.key]
  {
  }

  /** Assignment keeps a PHP array free of repeated keys. */
  lemma {:induction false} AssignDistinct(es: seq<Entry>, k: string, v: Value)
    requires Distinct(es)
    ensures Distinct(Assign(es, k, v))
  {
    var r := Assign(es, k, v);
    AssignShape(es, k, v);
    if HasKey(es, k) {
      forall i, j | 0 <= i < j < |r| ensures r[i].key != r[j].key {
        assert KeysOf(r)[i] == KeysOf(es)[i] && KeysOf(r)[j] == KeysOf(es)[j];
      }
    } else {
      forall i, j | 0 <= i < j < |r| ensures r[i].key != r[j].key {
        if j == |es| {
          assert r[j].key == k && r[i] == es[i];
          assert KeysOf(es)[i] == es[i].key;
        }
      }
    }
  }

  /** `$v[$k]` on any value: arrays are looked up; reading an offset of NULL,
      a boolean or an integer yields NULL. */
  function Index(v: Value, k: string): (r: Value)
    ensures !v.Arr? ==> r == Null
    ensures v.Arr? ==> r == Lookup(v.entries, k)
  {
    match v
    case Arr(es) => Lookup(es, k)
    case _ => Null
  }

  // ---------------------------------------------------------------------------
  // implode and its inverse
  // ---------------------------------------------------------------------------

  /** `implode(sep, xs)`: the elements of `xs` in order, with `sep` between
      neighbours; the empty list gives the empty string. */
  function Join(sep: char, xs: seq<string>): string
    decreases |xs|
  {
    if |xs| == 0 then ""
    else if |xs| == 1 then xs[0]
    else xs[0] + [sep] + Join(sep, xs[1..])
  }

  /** Cutting a string at every occurrence of `sep` (PHP's `explode`), the
      reading a server applies to a joined list. */
  function Split(sep: char, s: string): (parts: seq<string>)
    ensures |parts| > 0
    decreases |s|
  {
    if |s| == 0 then [""]
    else
      var rest := Split(sep, s[1..]);
      if s[0] == sep then [""] + rest
      else [[s[0]] + rest[0]] + rest[1..]
  }

  /** No element of `xs` contains the separator, so joining loses nothing. */
  predicate Separable(sep: char, xs: seq<string>) {
    forall i :: 0 <= i < |xs| ==> sep !in xs[i]
  }

  lemma {:induction false} SplitWithoutSeparator(sep: char, a: string)
    requires sep !in a
    ensures Split(sep, a) == [a]
    decreases |a|
  {
    if |a| > 0 {
      SplitWithoutSeparator(sep, a[1..]);
      assert [a[0]] + a[1..] == a;
    }
  }

  lemma {:induction false} SplitAtSeparator(sep: char, a: string, b: string)
    requires sep !in a
    ensures Split(sep, a + [sep] + b) == [a] + Split(sep, b)
    decreases |a|
  {
    var s := a + [sep] + b;
    if |a| == 0 {
      assert s[0] == sep && s[1..] == b;
    } else {
      assert s[1..] == a[1..] + [sep] + b;
      SplitAtSeparator(sep, a[1..], b);
      assert [a[0]] + a[1..] == a;
    }
  }

  /** Splitting an imploded non-empty list at the same separator gives the
      list back, provided no element contains the separator. */
  lemma {:induction false} SplitJoin(sep: char, xs: seq<string>)
    requires |xs| > 0 && Separable(sep, xs)
    ensures Split(sep, Join(sep, xs)) == xs
    decreases |xs|
  {
    if |xs| == 1 {
      SplitWithoutSeparator(sep, xs[0]);
    } else {
      assert sep !in xs[0];
      SplitAtSeparator(sep, xs[0], Join(sep, xs[1..]));
      assert Separable(sep, xs[1..]) by {
        forall i | 0 <= i < |xs| - 1 ensures sep !in xs[1..][i] {
          assert xs[1..][i] == xs[i + 1];
        }
      }
      SplitJoin(sep, xs[1..]);
      assert [xs[0]] + xs[1..] == xs;
    }
  }

  /** The pieces of every element of `xs` cut at `sep`, in order: what
      cutting `implode(sep, xs)` at `sep` yields for any list. */
  function Pieces(sep: char, xs: seq<string>): seq<string>
    decreases |xs|
  {
    if |xs| == 0 then [] else Split(sep, xs[0]) + Pieces(sep, xs[1..])
  }

  lemma SplitCons(sep: char, c: char, t: string)
    ensures Split(sep, [c] + t)
         == if c == sep then [""] + Split(sep, t)
            else [[c] + Split(sep, t)[0]] + Split(sep, t)[1..]
  {
    assert ([c] + t)[1..] == t;
  }

  lemma GlueFirst(c: char, ra: seq<string>, rb: seq<string>)
    requires |ra| > 0
    ensures [[c] + (ra + rb)[0]] + (ra + rb)[1..] == ([[c] + ra[0]] + ra[1..]) + rb
  {
    assert (ra + rb)[0] == ra[0];
    assert (ra + rb)[1..] == ra[1..] + rb;
  }

  /** Cutting at a separator placed between two strings cuts each of them
      on its own, whatever they contain. */
  lemma {:induction false} SplitAtAnySeparator(sep: char, a: string, b: string)
    ensures Split(sep, a + [sep] + b) == Split(sep, a) + Split(sep, b)
    decreases |a|
  {
    if |a| == 0 {
      assert a + [sep] + b == [sep] + b;
      SplitCons(sep, sep, b);
    } else {
      var t := a[1..];
      var u := t + [sep] + b;
      assert a + [sep] + b == [a[0]] + u by {
        assert a == [a[0]] + t;
      }
      assert Split(sep, a) == Split(sep, [a[0]] + t) by {
        assert a == [a[0]] + t;
      }
      SplitCons(sep, a[0], u);
      SplitCons(sep, a[0], t);
      SplitAtAnySeparator(sep, t, b);
      if a[0] != sep {
        GlueFirst(a[0], Split(sep, t), Split(sep, b));
      }
    }
  }

  /** Cutting an imploded non-empty list at its separator gives the pieces
      of its elements, for every list. */
  lemma {:induction false} SplitJoinAll(sep: char, xs: seq<string>)
    requires |xs| > 0
    ensures Split(sep, Join(sep, xs)) == Pieces(sep, xs)
    decreases |xs|
  {
    if |xs| == 1 {
      assert Pieces(sep, xs[1..]) == [];
    } else {
      SplitAtAnySeparator(sep, xs[0], Join(sep, xs[1..]));
      SplitJoinAll(sep, xs[1..]);
    }
  }

  /** Joining the pieces of any string cut at `sep` gives the string back. */
  lemma {:induction false} JoinSplit(sep: char, s: string)
    ensures Join(sep, Split(sep, s)) == s
    decreases |s|
  {
    if |s| > 0 {
      var rest := Split(sep, s[1..]);
      JoinSplit(sep, s[1..]);
      assert [s[0]] + s[1..] == s;
      if s[0] == sep {
        assert ([""] + rest)[1..] == rest;
      } else if |rest| > 1 {
        assert ([[s[0]] + rest[0]] + rest[1..])[1..] == rest[1..];
        assert Join(sep, rest) == rest[0] + [sep] + Join(sep, rest[1..]);
      }
    }
  }

  /** Two strings that cut into the same pieces are equal, so a list
      recovered by `Split` pins down the string it was cut from. */
  lemma SplitInjective(sep: char, a: string, b: string)
    requires Split(sep, a) == Split(sep, b)
    ensures a == b
  {
    JoinSplit(sep, a);
    JoinSplit(sep, b);
  }

  /** `implode(sep, xs)` as a PHP string: empty for the empty list, and for a
      non-empty list whose elements avoid `sep`, cutting it at `sep` gives the
      list back in order. */
  function Implode(sep: char, xs: seq<string>): (r: Value)
    ensures r.Str?
    ensures |xs| == 0 ==> r == Str("")
    ensures |xs| > 0 && Separable(sep, xs) ==> Split(sep, r.s) == xs
    ensures |xs| > 0 ==> Split(sep, r.s) == Pieces(sep, xs)
  {
    assert |xs| > 0 ==> Split(sep, Join(sep, xs)) == Pieces(sep, xs) by {
      if |xs| > 0 {
        SplitJoinAll(sep, xs);
      }
    }
    assert |xs| > 0 && Separable(sep, xs) ==> Split(sep, Join(sep, xs)) == xs by {
      if |xs| > 0 && Separable(sep, xs) {
        SplitJoin(sep, xs);
      }
    }
    Str(Join(sep, xs))
  }

  // ---------------------------------------------------------------------------
  // String conversion
  // ---------------------------------------------------------------------------

  /** The digit character for `d`. */
  function DigitChar(d: nat): (c: char)
    requires d < 10
    ensures '0' <= c <= '9' && DigitValue(c) == d
  {
    (('0' as int) + d) as char
  }

  /** The value of a decimal digit character. */
  function DigitValue(c: char): int {
    (c as int) - ('0' as int)
  }

  /** The number a string of decimal digits denotes, most significant digit
      first (Horner's rule); the reference reading of `NatText`. */
  function DigitsValue(s: string): int
    decreases |s|
  {
    if |s| == 0 then 0 else DigitsValue(s[..|s| - 1]) * 10 + DigitValue(s[|s| - 1])
  }

  /** Decimal digits of a natural number, most significant first, with no
      leading zero: the digits denote `n` again. */
  function NatText(n: nat): (r: string)
    ensures |r| > 0
    ensures forall i :: 0 <= i < |r| ==> '0' <= r[i] <= '9'
    ensures DigitsValue(r) == n
    ensures r[0] == '0' ==> r == "0"
    ensures r == "0" <==> n == 0
    decreases n
  {
    if n < 10 then [DigitChar(n)]
    else
      var front := NatText(n / 10);
      var r := front + [DigitChar(n % 10)];
      assert r[..|r| - 1] == front;
      r
  }

  /** `(string) $v`, as used by "{$v}" interpolation: NULL and FALSE give "",
      TRUE gives "1", integers their decimal form, arrays "Array". */
  function ToText(v: Value): (r: string)
    ensures v == Null || v == False ==> r == ""
    ensures v == True ==> r == "1"
    ensures v.Str? ==> r == v.s
    ensures v.Arr? ==> r == "Array"
    ensures v.Int? && v.i >= 0 ==>
              && |r| > 0 && (forall j :: 0 <= j < |r| ==> '0' <= r[j] <= '9')
              && (r[0] == '0' ==> r == "0") && DigitsValue(r) == v.i
    ensures v.Int? && v.i < 0 ==>
              && |r| > 1 && r[0] == '-' && (forall j :: 1 <= j < |r| ==> '0' <= r[j] <= '9')
              && r[1] != '0' && DigitsValue(r[1..]) == -v.i
    ensures !v.Arr? ==> (Truthy(v) <==> r != "" && r != "0")
  {
    match v
    case Null => ""
    case Bool(b) => if b then "1" else ""
    case Int(i) => if i < 0 then "-" + NatText(-i) else NatText(i)
    case Str(s) => s
    case Arr(_) => "Array"
  }
}

=== FILE: rest.dfy ===
/** The state of a `DwollaRestClient` and the bookkeeping every endpoint
    shares: the read-once error slot, the token slot, the response-envelope
    parser `_parse`, and the parameter merging done by `_get` and `_post`.
    The HTTP exchange itself is not modelled: the decoded server reply is an
    input of the operations that would have received it. */
module Rest {
  import opened Php

  datatype Option<T> = None | Some(value: T)

  /** Base URL of every endpoint reached through `_get` and `_post`. */
  const ApiServer: string := "https://www.dwolla.com/oauth/rest/"

  /** The scopes a client asks for when the constructor is given none. */
  const DefaultPermissions: seq<string> :=
    ["send", "transactions", "balance", "request", "contacts", "accountinfofull"]

  /** The client object. The credentials are whatever the caller passed
      (FALSE by default); `token` is NULL until `setToken` succeeds; `error`
      is falsy when no message is pending (FALSE initially and after
      `getError`, NULL or "" after some failed replies). */
  datatype Client = Client(
    apiKey: Value,
    apiSecret: Value,
    redirectUri: Value,
    permissions: seq<string>,
    token: Value,
    error: Value)

  /** What a client method hands back: its PHP return value and the client
      afterwards. */
  datatype Reply = Reply(result: Value, client: Client)

  /** `new DwollaRestClient(...)`: stores the configuration; a fresh client
      holds no token and no pending error. */
  function New(apiKey: Value := False, apiSecret: Value := False, redirectUri: Value := False,
               permissions: seq<string> := DefaultPermissions): (c: Client)
    ensures c.token == Null && !Truthy(c.token)
    ensures !Truthy(c.error)
    ensures c.apiKey == apiKey && c.apiSecret == apiSecret && c.redirectUri == redirectUri
    ensures c.permissions == permissions
  {
    Client(apiKey, apiSecret, redirectUri, permissions, Null, False)
  }

  /** Every field except the error slot agrees. */
  predicate SameButError(c: Client, d: Client) {
    c.(error := d.error) == d
  }

  // ---------------------------------------------------------------------------
  // Error slot
  // ---------------------------------------------------------------------------

  /** `_setError`: records the message, returns FALSE, touches nothing else. */
  function SetError(c: Client, message: Value): (r: Reply)
    ensures r.result == False
    ensures r.client.error == message
    ensures SameButError(c, r.client)
  {
    Reply(False, c.(error := message))
  }

  /** `getError`: hands out a pending (truthy) message and clears the slot;
      with nothing pending it returns FALSE and changes nothing. */
  function GetError(c: Client): (r: Reply)
    ensures Truthy(c.error) ==> r.result == c.error && r.client.error == False
    ensures !Truthy(c.error) ==> r.result == False && r.client == c
    ensures !Truthy(r.client.error)
    ensures SameButError(c, r.client)
  {
    if !Truthy(c.error) then Reply(False, c)
    else Reply(c.error, c.(error := False))
  }

  /** The error slot is read-once: a second `getError` straight after the
      first returns FALSE and leaves the client as the first one left it. */
  lemma GetErrorReadOnce(c: Client)
    ensures GetError(GetError(c).client) == Reply(False, GetError(c).client)
  {
  }

  /** A truthy message recorded by `_setError` is exactly what the next
      `getError` returns. */
  lemma SetErrorThenGetError(c: Client, message: Value)
    requires Truthy(message)
    ensures GetError(SetError(c, message).client).result == message
    ensures GetError(SetError(c, message).client).client == c.(error := False)
  {
  }

  // ---------------------------------------------------------------------------
  // Token slot
  // ---------------------------------------------------------------------------

  const TokenMissing: string := "Please pass a token string."

  /** `setToken`: a falsy token is refused with a message and the stored
      token stays; a truthy one is stored and TRUE returned. */
  function SetToken(c: Client, token: Value): (r: Reply)
    ensures Truthy(r.result) <==> Truthy(token)
    ensures Truthy(token) ==> r.client == c.(token := token) && r.result == True
    ensures !Truthy(token) ==> r.result == False && r.client == c.(error := Str(TokenMissing))
  {
    if !Truthy(token) then SetError(c, Str(TokenMissing))
    else Reply(True, c.(token := token))
  }

  /** `getToken`: the stored token. It returns no new client, so it has no
      side effect on either slot. */
  function GetToken(c: Client): (t: Value)
    ensures t == c.token
  {
    c.token
  }

  /** A stored token reads back unchanged; a refused one leaves the previous
      token in place and its message is what `getError` reports. */
  lemma SetTokenThenGetToken(c: Client, token: Value)
    ensures Truthy(token) ==> GetToken(SetToken(c, token).client) == token
    ensures !Truthy(token) ==> GetToken(SetToken(c, token).client) == GetToken(c)
    ensures !Truthy(token) ==> GetError(SetToken(c, token).client).result == Str(TokenMissing)
  {
  }

  // ---------------------------------------------------------------------------
  // Envelope parser
  // ---------------------------------------------------------------------------

  /** The `{Success, Message, Response}` envelope as json_decode(..., TRUE)
      produces it. */
  function Envelope(success: Value, message: Value, payload: Value): (v: Value)
    ensures Index(v, "Success") == success
    ensures Index(v, "Message") == message
    ensures Index(v, "Response") == payload
  {
    var es := [Entry("Success", success), Entry("Message", message), Entry("Response", payload)];
    assert es[0].key == "Success" && es[1].key == "Message" && es[2].key == "Response";
    assert Distinct(es);
    Arr(es)
  }

  /** `_parse`: a truthy `Success` yields `Response` unchanged and leaves the
      error slot alone; anything else (including a missing field or a reply
      that did not decode, i.e. NULL) stores `Message` and yields FALSE. */
  function Parse(c: Client, response: Value): (r: Reply)
    ensures Truthy(Index(response, "Success")) ==> r == Reply(Index(response, "Response"), c)
    ensures !Truthy(Index(response, "Success")) ==>
              r.result == False && r.client == c.(error := Index(response, "Message"))
    ensures SameButError(c, r.client)
  {
    if !Truthy(Index(response, "Success")) then SetError(c, Index(response, "Message"))
    else Reply(Index(response, "Response"), c)
  }

  /** A failed envelope with a truthy message surfaces that message through
      `getError` exactly once. */
  lemma ParseFailureSurfaces(c: Client, message: Value, payload: Value)
    requires Truthy(message)
    ensures var p := Parse(c, Envelope(False, message, payload));
            p.result == False
            && GetError(p.client).result == message
            && GetError(GetError(p.client).client).result == False
  {
  }

  /** A reply that did not decode fails silently: `_parse` returns FALSE but
      stores NULL, wiping any earlier message, so `getError` reports nothing. */
  lemma ParseUndecodableIsSilent(c: Client)
    ensures Parse(c, Null).result == False
    ensures Parse(c, Null).client.error == Null
    ensures GetError(Parse(c, Null).client).result == False
  {
  }

  /** A successful envelope whose payload is FALSE cannot be told apart from
      a failure by the return value alone; only the error slot differs. */
  lemma FalsePayloadLooksLikeFailure(c: Client, message: Value)
    ensures Parse(c, Envelope(True, message, False)).result
         == Parse(c, Envelope(False, message, Null)).result
    ensures Parse(c, Envelope(True, message, False)).client == c
  {
  }

  // ---------------------------------------------------------------------------
  // _get / _post
  // ---------------------------------------------------------------------------

  datatype Verb = GET | POST

  /** A call as an endpoint method hands it to `_get` or `_post`: the path
      below the API server and the parameter array. */
  datatype Request = Request(verb: Verb, path: string, params: seq<Entry>)

  /** What goes to the transport: the full URL, the query pairs (the array
      given to http_build_query) and the array serialised as the JSON body. */
  datatype Wire = Wire(verb: Verb, url: string, query: seq<Entry>, body: seq<Entry>)

  /** `_get` / `_post`: set `oauth_token` in the caller's array to the current
      token (overwriting one the caller supplied), keep every other key, its
      value and its position, and append the result to the URL. `_post`
      also sends the array as the body; `_get` sends an empty array. */
  function Transmit(c: Client, req: Request): (w: Wire)
    ensures w.verb == req.verb && w.url == ApiServer + req.path
    ensures Lookup(w.query, "oauth_token") == c.token
    ensures forall k :: k != "oauth_token" ==> Lookup(w.query, k) == Lookup(req.params, k)
    ensures forall k :: HasKey(w.query, k) <==> HasKey(req.params, k) || k == "oauth_token"
    ensures HasKey(req.params, "oauth_token") ==> KeysOf(w.query) == KeysOf(req.params)
    ensures !HasKey(req.params, "oauth_token") ==> w.query == req.params + [Entry("oauth_token", c.token)]
    ensures w.body == if req.verb == POST then w.query else []
  {
    var query := Assign(req.params, "oauth_token", c.token);
    AssignShape(req.params, "oauth_token", c.token);
    Wire(req.verb, ApiServer + req.path, query, if req.verb == POST then query else [])
  }

  /** The array sent is a proper PHP array whenever the caller's was. */
  lemma TransmitDistinct(c: Client, req: Request)
    requires Distinct(req.params)
    ensures Distinct(Transmit(c, req).query)
  {
    AssignDistinct(req.params, "oauth_token", c.token);
  }

  // ---------------------------------------------------------------------------
  // Running an endpoint method
  // ---------------------------------------------------------------------------

  /** What an endpoint method decides before any I/O: refuse with a message,
      or hand a request to `_get` / `_post`. */
  datatype Plan = Reject(message: string) | Dispatch(req: Request)

  /** The observable result of an endpoint call: its return value, the
      client afterwards, and the request put on the wire, if any. */
  datatype Outcome = Outcome(result: Value, client: Client, sent: Option<Wire>)

  /** Carries out a plan. `response` stands for the decoded reply to the
      request sent; a refused plan sends nothing and never reads it. Only the
      error slot of the client can change. */
  function Exec(c: Client, plan: Plan, response: Value): (o: Outcome)
    ensures plan.Reject? ==>
              o.sent == None && o.result == False && o.client == c.(error := Str(plan.message))
    ensures plan.Dispatch? ==>
              o.sent == Some(Transmit(c, plan.req)) && Reply(o.result, o.client) == Parse(c, response)
    ensures SameButError(c, o.client)
  {
    match plan
    case Reject(message) =>
      var r := SetError(c, Str(message));
      Outcome(r.result, r.client, None)
    case Dispatch(req) =>
      var r := Parse(c, response);
      Outcome(r.result, r.client, Some(Transmit(c, req)))
  }

  /** A refusal is reported through `getError` with its exact message,
      whatever the server would have said. */
  lemma RejectSurfaces(c: Client, message: string, response: Value)
    requires message != "" && message != "0"
    ensures GetError(Exec(c, Reject(message), response).client).result == Str(message)
    ensures Exec(c, Reject(message), response).client.token == c.token
  {
  }
}
